=== FILE: README.md ===
# wari tagged errors: a verified model of the runtime core

wari represents failures as values. An `Err` pairs a string tag (its `type`
property) with a `details` payload. When it is constructed it builds the
message `"<type>: <JSON of details>"`. The JSON is made with a replacer that
keeps a stack of ancestor objects, so cyclic details print the marker
`"[Circular]"` instead of failing. On top of `Err` the library has five
functions:

- `make` constructs an `Err`.
- `is` and `any` are guards.
- `match` routes a value to a handler for its tag.
- `tryCatch` turns a thrown exception into an `Unknown` error.

This project models that runtime core in Dafny:

- `values.dfy` (`Values`): the JavaScript values the library sees.
  - Primitives, and references into a heap of objects.
  - Object kinds: plain records, arrays, plain `Error`s (whose message is not
    enumerable) and `Err`s (whose enumerable properties are `type` and
    `details`).
  - A heap is a sequence of objects; allocation appends, so a fresh object is
    one past the old end.
  - Calls into user code end in an `Outcome`: `Returned` or `Threw`.
- `json.dfy` (`JsonTree`): the JSON document and its compact text.
  - Quoting strings and printing numbers belong to the host. They are an
    `Encoding` parameter.
- `replacer.dfy` (`Replacer`): the replacer from `getCircularReplacer`.
  - Its ancestor stack is passed in and handed back explicitly.
- `stringify.dfy` (`JsonStringify`): `JSON.stringify(details, replacer)`.
  - It walks the graph depth first, with the standard algorithm's own stack
    of objects being serialised. That stack raises a `TypeError` on a cycle.
  - It calls the replacer on every value before serialising it.
  - `Unfold` is a reference definition without state: along the path from the
    root, an object that is its own ancestor becomes the marker.
  - The central theorem says the stateful walk equals `Unfold` and never
    raises the `TypeError`. That holds because the replacer's stack, once cut
    back to the holder, is exactly the root-to-parent path.
- `err.dfy` (`Errors`): the `Err` constructor and its message.
- `functions.dfy` (`Functions`): `make`, `is`, `any`, `match` and the
  synchronous part of `tryCatch`, with the relations between them.
- `examples.dfy` (`Examples`): the behaviour the repository's tests state,
  on concrete heaps.

Three points where the code decides what a reader might expect otherwise:

- The three-argument overload's return type names the default `_`
  (src/functions.ts:23). The runtime body reads only the third positional
  argument (src/functions.ts:26-28), so a handler key `_` is an ordinary tag.
- The repository's tests call `tryCatch(fn, handleError)`, while
  src/functions.ts:33 takes `(fn, ...args)`. The model follows the code.
- The `Unknown` error's message does not carry the missing tag. The tag sits
  only in the message of the inner `Error`, and that message is not
  enumerable. So the message is `Unknown: {"error":{}}` whatever the tag
  (`MissingHandler`).

## Model

| member | source | states |
|---|---|---|
| Replacer.PopUntil | src/Err.ts:17 | The cut-back stack is a prefix of the old stack that is empty or has the holder on top, and no popped entry was the holder |
| Replacer.Replace | src/Err.ts:14-21 | Primitives and null come back unchanged and leave the stack alone. The result is always the input or the marker. An object is replaced exactly when it is on the cut-back stack, and is pushed exactly when it is not |
| JsonStringify.PopToPath | src/Err.ts:17 | When the replacer's stack starts with the root-to-holder chain and repeats no object, cutting back to the holder leaves exactly that chain |
| JsonStringify.PropertyFollowsPath | src/Err.ts:13-21 | Visiting a property keeps the invariant that the replacer's stack extends the serialisation path without repeats. The result equals the reference unfolding along the path, and never the cyclic TypeError |
| JsonStringify.MembersFollowPath | src/Err.ts:13-21 | Serialising an object's properties in order keeps the same invariant, threading the stack from one property to the next, and matches the reference unfolding |
| JsonStringify.Stringify | src/Err.ts:8-22 | Serialising details with the circular replacer terminates on every finite graph, cyclic or not, and never raises TypeError. Its result is the unfolding in which exactly the objects that are their own ancestors become the marker |
| JsonStringify.MarkerExactlyOnPath | src/Err.ts:18 | An object becomes the marker if and only if it is already on the path from the root; otherwise it is printed as an object or array |
| JsonStringify.AcyclicPrintsInFull | src/Err.ts:17-19 | When the part of the heap the value reaches is acyclic (a region closed under references, with a ranking that strictly decreases along every reference in it, whatever the allocation order and whatever cycles lie elsewhere), the output equals plain serialisation, for every such region and ranking. An object reached along sibling paths is printed in full each time, because only ancestors count |
| JsonStringify.UnfoldFrame | src/Err.ts:8 | The serialisation of a value depends only on what it reaches: a larger heap, or path entries outside it, change nothing |
| Errors.MessageOf | src/Err.ts:8 | The message is the tag, then ": ", then the circular-safe serialisation of the details (or "undefined" when the serialisation is empty) |
| Errors.NewErr | src/Err.ts:3-9 | Construction allocates a fresh object and leaves existing objects untouched. It stores the tag and the details unchanged, with the message built from the details as they were at construction time |
| Functions.Make | src/functions.ts:4-6 | `make` returns a fresh `Err` that passes `is` for its own tag, holds the given details, and has the message of the constructor |
| Functions.Any | src/functions.ts:14-16 | `any(x)` is `x instanceof Err`: false for every primitive, and true only of a reference to an existing `Err` |
| Functions.ErrsPassAny | src/functions.ts:14-16 | Conversely, every reference to an existing `Err` passes `any`, and `is` for its own tag, so `any(x)` holds exactly when `x instanceof Err` |
| Functions.Is | src/functions.ts:9-11 | `is(x, k)` holds only of an `Err` (so it implies `any`), and of an `Err` exactly when its tag equals `k` |
| Functions.MadeErrorIsItsTag | src/functions.ts:4-16 | A made error passes `any` and `is` for its own tag, and fails `is` for every other tag |
| Functions.IsRefinesAny | src/functions.ts:9-16 | `is(x, k)` implies `any(x)`, and every `Err` passes `is` for its own tag |
| Functions.OnlyErrsAreErrs | src/functions.ts:14-16 | Primitives, plain objects, arrays and plain `Error`s fail `any` and every `is` |
| Functions.GuardsSurviveAllocation | src/functions.ts:9-16 | Allocating a new error changes neither guard's answer on any existing value: the guards read nothing that later construction changes |
| Functions.RouteOf | src/functions.ts:26-28 | The handler for the tag wins over the default. Omitted handlers count as `{}`. The result is unhandled exactly when there is neither a handler for the tag nor a default |
| Functions.MissingRecord | src/functions.ts:29 | The details object for a missing handler is a fresh record whose only property `error` points at a fresh plain `Error` naming the tag; it serialises as `{"error":{}}` |
| Functions.MissingHandler | src/functions.ts:29 | A missing handler yields a returned (not thrown) fresh `Unknown` error whose `details.error` is an `Error` naming the missing tag. Its own message is `Unknown: ` followed by the text of `{"error":{}}`, the same for every tag |
| Functions.EmptyErrorPrintsEmpty | src/functions.ts:29 | `{ error: <plain Error> }` serialises as `{"error":{}}`, because an `Error`'s message is not enumerable |
| Functions.EmptyErrorText | src/functions.ts:29 | The text of `{"error":{}}` is the quoted key `error`, a colon and `{}` inside braces, whatever the encoding |
| Functions.Match | src/functions.ts:24-31 | A non-error comes back unchanged whatever the handlers. An `Err` goes to exactly the handler for its tag, else the default, and the call returns that handler's outcome. With neither, the result is an `Unknown` error reporting the tag, on a heap that only grew |
| Functions.MatchChainPassesThrough | src/functions.ts:25 | A non-error passes unchanged through any chain of `match` calls |
| Functions.MatchMadeError | src/functions.ts:28-30 | Matching a freshly made error calls the handler for its tag even when a default is supplied |
| Functions.MatchOnlyThrowsFromHandlers | src/functions.ts:24-31 | `match` adds no throw of its own: with handlers that never throw, it always returns |
| Functions.TryCatch | src/functions.ts:33-43 | For the values the model has, nothing escapes. A normal return is passed on unchanged. A throw becomes a fresh `Unknown` error whose details object holds the thrown value under `error`, and whose message serialises that value as it stood when thrown |
| Functions.TryCatchKeepsThrown | src/functions.ts:40-42 | The thrown value can be read back from the `Unknown` error's `details.error` |
| Functions.RecordPrints | src/functions.ts:41 | `{ error: e }` on top of the heap `e` lives in serialises as `e` does alone, under the key `error`; an `undefined` `e` leaves `{}` |
| Functions.LookupAsWritten | src/functions.ts:28 | The lookup as written: an own handler is found first, and after it any name inherited from `Object.prototype`, before the default |
| Functions.InheritedTagSkipsFallback | src/functions.ts:28 | For the tag `constructor` the written lookup finds an inherited member, never the default or the missing-handler error that the corrected `RouteOf` reaches |
| Functions.CallInherited | src/functions.ts:28-30 | Calling an inherited member as `fn(error)` with an `undefined` receiver: `constructor` returns the error itself, `toString` returns `[object Undefined]`, and exactly the other inherited names throw a fresh `TypeError` |
| Functions.MatchAsWritten | src/functions.ts:24-31 | `match` as written agrees with the corrected `Match` on every input except an `Err` whose tag names an `Object.prototype` member that no handler covers |
| Functions.InheritedTagsMisroute | src/functions.ts:28-30 | As written, tag `constructor` returns the error unchanged and tag `__proto__` throws. The corrected `match` gives the default's outcome, or without a default returns a fresh `Unknown` error |
| Examples.JsonErrorMessage | tests/make.test.ts:8-14 | `make('JsonError', {text: 'foo'})` has type `JsonError`, the given details, and the message `JsonError: {"text":"foo"}` |
| Examples.TextFooUnfolds | tests/make.test.ts:8-14 | The details `{text: 'foo'}` serialise to the one-member object `{"text":"foo"}` |
| Examples.SelfReferencePrintsMarker | src/Err.ts:18 | `{ self: <itself> }` serialises to `{"self":"[Circular]"}` instead of failing |
| Examples.TwoStepCycleCutWhereItCloses | src/Err.ts:17-18 | `a = {b}`, `b = {a}` prints `{"b":{"a":"[Circular]"}}`: the cycle is cut where it closes |
| Examples.SharedObjectPrintedTwice | src/Err.ts:17-19 | `{a: o, b: o}` prints `o` in full under both keys |
| Examples.ReplacerTraceOnSiblings | src/Err.ts:15-20 | On `{a: o, b: o}` the replacer's successive calls cut the stack back to the holder, so the second visit of `o` is kept; a hypothetical back edge from `o` to the root, which this graph does not have, would be replaced |
| Examples.ForwardEdgePrintsInFull | src/Err.ts:17-19 | `a = {}; a.b = {}`, whose reference points to a later object, prints `{"b":{}}` |
| Examples.AcyclicPartOfCyclicHeap | src/Err.ts:17-19 | In a heap that also holds the cyclic `{self: <itself>}`, the diamond `{a: o, b: o}` still reaches only an acyclic region and prints `o` in full under both keys |
| Examples.MixedHasCycle | src/Err.ts:17-19 | No ranking covers the whole of that heap, because of the self-reference |
| Examples.IsExamples | tests/is.test.ts:7-10 | `new Err('JsonError', {text: ''})`, built by the constructor, passes `is(_, 'JsonError')` and fails `is(_, 'HttpError')` |
| Examples.AnyExamples | tests/any.test.ts:7-10 | `any` holds of `new Err('JsonError', {text: ''})` and fails for a string and for a plain `Error` |
| Examples.MatchExamples | tests/match.test.ts:6-21 | `match(1, …)` is `1`. A `JsonError` goes to its handler (200) |
| Examples.UnhandledExample | src/functions.ts:29 | An `HttpError` with no handler and no default gives an `Unknown` error reporting `HttpError` |
| Examples.TryCatchExamples | src/functions.ts:33-42 | A normal return passes through `tryCatch`; a thrown `Error` becomes an `Unknown` error that holds it |

## Findings

| source | as written | input that shows it | evidently intended | confidence | as-written member | corrected member |
|---|---|---|---|---|---|---|
| src/functions.ts:28 | `handlers[error.type]` is an ordinary property read, so it also finds members every object inherits from `Object.prototype` | `match(make('constructor', {}), {})` finds `Object`. It calls `Object(err)` and returns the error itself, not an `Unknown` error. A default handler is skipped too. The tag `__proto__` finds a non-function, so the call throws; so do the other inherited names except `toString`, because `fn(error)` runs them with an `undefined` receiver | only handlers the caller supplied are consulted; otherwise the default; otherwise an `Unknown` error, and `match` never throws | medium, not executed | Functions.InheritedTagsMisroute | Functions.RouteOf |

`Functions.Match` uses the corrected `RouteOf`. `Functions.MatchAsWritten` models `match` as written, with `Functions.LookupAsWritten` for the lookup and `Functions.CallInherited` for what calling the inherited member does.

## Left out

- TryCatch: the promise branch (src/functions.ts:36-38) is not modelled. The model's values include no promise objects, so `res instanceof Promise` is always false here. Asynchronous rejection has no sequential meaning.
- `safe` and the `tryCatch(fn, handleError)` form used by tests/safe.test.ts and tests/tryCatch.test.ts: src/functions.ts does not define `safe` (src/index.ts re-exports it), and its `tryCatch` takes `(fn, ...args)`.
- The aliases `new` and `catch` (src/index.ts:3) are the same functions as `make` and `tryCatch`.
- The compile-time types (src/types/index.ts, src/types.ts, src/types/utils.ts, tests/types.ts): they have no runtime behaviour.
- src/WariError.ts, the older copy of `Err` without cycle handling, is not part of this model.
- bin/test.ts, the test-runner bootstrap, is not part of this model.
- Number formatting and string quoting and escaping inside `JSON.stringify` are the `Encoding` parameter. Numbers are integers only: fractions, `NaN` and the infinities are not in the model.
- The `"Error: "` prefix that `Error.prototype.toString` adds to the message is host behaviour and not modelled.
- Values outside the model's universe: functions, symbols, BigInts, getters, `toJSON` methods, boxed primitives, symbol keys and other non-enumerable properties except an `Error`'s message. Callers can pass such values as details or throw them, and the library does not guard against them.
- JsonStringify.Stringify: the serialisation in `new Err` throws on some values outside the universe. A BigInt gives a `TypeError`, a throwing `toJSON` or getter throws its own value, and very deep nesting gives a `RangeError`. "Never raises" holds only inside the universe.
- Make: for the same values `make` throws instead of returning an `Err`, because it runs the constructor's serialisation.
- TryCatch: "nothing escapes" holds only inside the universe. If the thrown value cannot be serialised (a BigInt, a throwing `toJSON` or getter, very deep nesting), the `new Err('Unknown', { error })` at src/functions.ts:41 throws, and that exception leaves `tryCatch`.
- The text of a host `TypeError` is not modelled: `CallInherited` throws a plain `Error` whose message is `TypeError: ` and the member's name.
- The replacer's `key` argument is ignored by the source, so the model omits it.
- Handlers, and the function given to `tryCatch`, are total functions from the heap (and the error, or the arguments) to an outcome. A handler entry that is present but falsy (`undefined`, `0`) is not representable: a present entry is a function.
- Match: uses the corrected lookup, so tags that name members of `Object.prototype` are routed as the findings table says the source evidently intends, not as it runs.
- The `stack` and `name` properties of errors are not modelled; neither is enumerable, so neither affects a message.
- Determinism of `is` and `any` holds by construction, since Dafny functions are pure; the guard-stability lemma covers "no hidden mutation".

=== FILE: err.dfy ===
/** The `Err` class: construction stores the tag and the details and builds
    the message `"<type>: <serialised details>"` once. */
module Errors {
  import opened Values
  import opened JsonTree
  import opened JsonStringify

  /** A template literal's rendering of a serialisation: its text, or
      `"undefined"` when `JSON.stringify` produced nothing. */
  function Interpolate(o: Option<Json>, enc: Encoding): string {
    match o
    case None => "undefined"
    case Some(j) => Text(j, enc)
  }

  /** The message an `Err` passes to `Error`: the tag, `": "`, and the
      circular-safe serialisation of the details. */
  function MessageOf(h: Heap, enc: Encoding, tag: string, details: Value): (m: string)
    requires ValidIn(h, details)
    ensures m == tag + ": " + Interpolate(Unfold(h, details, []), enc)
    ensures m[..|tag| + 2] == tag + ": "
  {
    tag + ": " + Interpolate(Stringify(h, details).json, enc)
  }

  /** A freshly allocated object and the heap that now holds it. */
  datatype Alloc = Alloc(heap: Heap, ref: Ref)

  /** Allocates `obj` at the first free reference. */
  function Allocate(h: Heap, obj: Node): (a: Alloc)
    requires forall i :: 0 <= i < |Children(obj)| ==> ValidIn(h, Children(obj)[i])
    ensures a.heap == h + [obj] && a.ref == |h|
  {
    AllocateKeepsClosed(h, obj);
    Alloc(h + [obj], |h|)
  }

  /** `new Err(type, details)`: a fresh object, existing objects untouched,
      holding the tag and details as given and the message built from the
      details as they are at construction time. */
  function NewErr(h: Heap, enc: Encoding, tag: string, details: Value): (a: Alloc)
    requires ValidIn(h, details)
    ensures |h| <= a.ref < |a.heap|
    ensures |a.heap| == |h| + 1 && a.heap[..|h|] == h
    ensures a.heap == h + [a.heap[a.ref]]
    ensures a.heap[a.ref].ErrObject?
    ensures a.heap[a.ref].err.tag == tag && a.heap[a.ref].err.details == details
    ensures a.heap[a.ref].err.message == tag + ": " + Interpolate(Unfold(h, details, []), enc)
  {
    Allocate(h, ErrObject(Err(tag, details, MessageOf(h, enc, tag, details))))
  }
}

=== FILE: examples.dfy ===
/** The behaviour the repository's tests state, on concrete heaps. */
module Examples {
  import opened Values
  import opened JsonTree
  import opened Replacer
  import opened JsonStringify
  import opened Errors
  import opened Functions

  /** Quotes a string with no characters that need escaping. */
  function Quote(s: string): string {
    "\"" + s + "\""
  }

  /** Leaf rendering for strings free of escapes; no example prints a
      number. */
  const Enc: Encoding := Encoding(Quote, n => "0")

  /** `{ text: 'foo' }` as object 0. */
  const TextFoo: Heap := [Record([Field("text", Prim(Str("foo")))])]

  lemma TextFooUnfolds()
    ensures Unfold(TextFoo, Obj(0), []) == Some(JObj([Member("text", JStr("foo"))]))
  {
    var h := TextFoo;
    assert Children(h[0]) == [Prim(Str("foo"))];
    assert Keys(h[0]) == ["text"];
    assert UnfoldMembers(h, 0, 1, [0]) == [];
    assert UnfoldMembers(h, 0, 0, [0]) == [Some(JStr("foo"))];
    assert [] + [0] == [0];
    assert ObjectMembers(["text"], [Some(JStr("foo"))]) == [Member("text", JStr("foo"))];
  }

  lemma TextFooText()
    ensures Text(JObj([Member("text", JStr("foo"))]), Enc) == "{\"text\":\"foo\"}"
  {
    var ms := [Member("text", JStr("foo"))];
    var parts := seq(|ms|, i requires 0 <= i < |ms| => Enc.quote(ms[i].key) + ":" + Text(ms[i].value, Enc));
    assert Enc.quote == Quote;
    assert |parts| == 1 && parts[0] == Enc.quote("text") + ":" + Enc.quote("foo");
    QuotedPair();
  }

  lemma QuotedPair()
    ensures "{" + (Quote("text") + ":" + Quote("foo")) + "}" == "{\"text\":\"foo\"}"
  {
  }

  lemma JsonErrorLine()
    ensures "JsonError" + ": " + "{\"text\":\"foo\"}" == "JsonError: {\"text\":\"foo\"}"
  {
  }

  /** `make('JsonError', { text: 'foo' })` has the message
      `JsonError: {"text":"foo"}`. */
  lemma JsonErrorMessage()
    ensures var a := Make(TextFoo, Enc, "JsonError", Obj(0));
            && Is(a.heap, Obj(a.ref), "JsonError")
            && a.heap[a.ref].err.details == Obj(0)
            && a.heap[a.ref].err.message == "JsonError: {\"text\":\"foo\"}"
  {
    TextFooUnfolds();
    TextFooText();
    JsonErrorLine();
  }

  /** `{ self: <itself> }` serialises, with the marker in place of the
      reference back to itself, instead of raising a `TypeError`. */
  lemma SelfReferencePrintsMarker()
    ensures var h: Heap := [Record([Field("self", Obj(0))])];
            Stringify(h, Obj(0)) == Serialized(Some(JObj([Member("self", JStr(Circular))])))
  {
    var h: Heap := [Record([Field("self", Obj(0))])];
    assert Children(h[0]) == [Obj(0)];
    assert Keys(h[0]) == ["self"];
    assert UnfoldMembers(h, 0, 1, [0]) == [];
    assert UnfoldMembers(h, 0, 0, [0]) == [Some(JStr(Circular))];
    assert [] + [0] == [0];
    assert ObjectMembers(["self"], [Some(JStr(Circular))]) == [Member("self", JStr(Circular))];
  }

  /** A cycle through two objects is cut where it closes:
      `a = { b }`, `b = { a }` prints `{"b":{"a":"[Circular]"}}`. */
  lemma TwoStepCycleCutWhereItCloses()
    ensures var h: Heap := [Record([Field("b", Obj(1))]), Record([Field("a", Obj(0))])];
            Stringify(h, Obj(0))
            == Serialized(Some(JObj([Member("b", JObj([Member("a", JStr(Circular))]))])))
  {
    var h: Heap := [Record([Field("b", Obj(1))]), Record([Field("a", Obj(0))])];
    assert Children(h[0]) == [Obj(1)] && Keys(h[0]) == ["b"];
    assert Children(h[1]) == [Obj(0)] && Keys(h[1]) == ["a"];
    assert UnfoldMembers(h, 1, 1, [0, 1]) == [];
    assert UnfoldMembers(h, 1, 0, [0, 1]) == [Some(JStr(Circular))];
    var inner := JObj([Member("a", JStr(Circular))]);
    assert ObjectMembers(["a"], [Some(JStr(Circular))]) == inner.members;
    assert [0] + [1] == [0, 1];
    assert Unfold(h, Obj(1), [0]) == Some(inner);
    assert UnfoldMembers(h, 0, 1, [0]) == [];
    assert UnfoldMembers(h, 0, 0, [0]) == [Some(inner)];
    assert ObjectMembers(["b"], [Some(inner)]) == [Member("b", inner)];
    assert [] + [0] == [0];
  }

  /** `o = { x: 'y' }` (object 0) and `{ a: o, b: o }` (object 1). */
  const Diamond: Heap := [Record([Field("x", Prim(Str("y")))]), Record([Field("a", Obj(0)), Field("b", Obj(0))])]

  const Leafy: Json := JObj([Member("x", JStr("y"))])

  /** Allocation order ranks the diamond: every property points back. */
  const ByIndex: Ref -> nat := r => r

  lemma DiamondIsAcyclic()
    ensures Ranked(Diamond, {0, 1}, ByIndex)
  {
    assert Children(Diamond[0]) == [Prim(Str("y"))];
    assert Children(Diamond[1]) == [Obj(0), Obj(0)];
  }

  lemma DiamondLeafPrints()
    ensures Ranked(Diamond, {0, 1}, ByIndex) && Plain(Diamond, {0, 1}, ByIndex, Obj(0)) == Some(Leafy)
  {
    DiamondIsAcyclic();
    var h := Diamond;
    assert Children(h[0]) == [Prim(Str("y"))] && Keys(h[0]) == ["x"];
    assert PlainMembers(h, {0, 1}, ByIndex, 0, 1) == [];
    assert PlainMembers(h, {0, 1}, ByIndex, 0, 0) == [Some(JStr("y"))];
    assert ObjectMembers(["x"], [Some(JStr("y"))]) == Leafy.members;
  }

  /** An object reached along two sibling properties is printed in full at
      both: `{ a: o, b: o }` prints `{"a":{"x":"y"},"b":{"x":"y"}}`. */
  lemma SharedObjectPrintedTwice()
    ensures Stringify(Diamond, Obj(1)) == Serialized(Some(JObj([Member("a", Leafy), Member("b", Leafy)])))
  {
    var h := Diamond;
    DiamondLeafPrints();
    AcyclicPrintsInFull(h, {0, 1}, ByIndex, Obj(1));
    assert Children(h[1]) == [Obj(0), Obj(0)] && Keys(h[1]) == ["a", "b"];
    assert PlainMembers(h, {0, 1}, ByIndex, 1, 2) == [];
    assert PlainMembers(h, {0, 1}, ByIndex, 1, 1) == [Some(Leafy)];
    assert PlainMembers(h, {0, 1}, ByIndex, 1, 0) == [Some(Leafy), Some(Leafy)];
    assert ObjectMembers(["b"], [Some(Leafy)]) == [Member("b", Leafy)];
    assert ObjectMembers(["a", "b"], [Some(Leafy), Some(Leafy)]) == [Member("a", Leafy), Member("b", Leafy)];
  }

  /** `a = {}; a.b = {}`: object 0 refers to the later object 1, so
      allocation order does not rank it, but the reverse order does. */
  const Mutated: Heap := [Record([Field("b", Obj(1))]), Record([])]

  const Reversed: Ref -> nat := r => if r == 0 then 1 else 0

  /** An acyclic graph whose edges point forward in allocation order still
      prints in full: `{"b":{}}`. */
  lemma ForwardEdgePrintsInFull()
    ensures Ranked(Mutated, {0, 1}, Reversed)
    ensures Stringify(Mutated, Obj(0)) == Serialized(Some(JObj([Member("b", JObj([]))])))
  {
    var h := Mutated;
    assert Children(h[0]) == [Obj(1)] && Keys(h[0]) == ["b"];
    assert Children(h[1]) == [] && Keys(h[1]) == [];
    assert Ranked(h, {0, 1}, Reversed);
    AcyclicPrintsInFull(h, {0, 1}, Reversed, Obj(0));
    assert PlainMembers(h, {0, 1}, Reversed, 1, 0) == [];
    assert ObjectMembers([], []) == [];
    assert Plain(h, {0, 1}, Reversed, Obj(1)) == Some(JObj([]));
    assert PlainMembers(h, {0, 1}, Reversed, 0, 1) == [];
    assert PlainMembers(h, {0, 1}, Reversed, 0, 0) == [Some(JObj([]))];
    assert ObjectMembers(["b"], [Some(JObj([]))]) == [Member("b", JObj([]))];
  }

  /** A heap holding the cyclic `{ self: <itself> }` (object 0) next to `o`
      (object 1) and `{ a: o, b: o }` (object 2). */
  const Mixed: Heap := [Record([Field("self", Obj(0))]), Record([Field("x", Prim(Str("y")))]),
                        Record([Field("a", Obj(1)), Field("b", Obj(1))])]

  /** The self-reference rules out a ranking of the whole heap. */
  lemma MixedHasCycle(rank: Ref -> nat)
    ensures !Ranked(Mixed, {0, 1, 2}, rank)
  {
    var h := Mixed;
    assert Children(h[0]) == [Obj(0)];
    assert Children(h[0])[0].Obj? && Children(h[0])[0].ref == 0 && 0 in {0, 1, 2};
    assert !(rank(Children(h[0])[0].ref) < rank(0));
  }

  lemma MixedLeafPrints()
    ensures Ranked(Mixed, {1, 2}, ByIndex) && Plain(Mixed, {1, 2}, ByIndex, Obj(1)) == Some(Leafy)
  {
    var h := Mixed;
    assert Children(h[1]) == [Prim(Str("y"))] && Keys(h[1]) == ["x"];
    assert Children(h[2]) == [Obj(1), Obj(1)];
    assert Ranked(h, {1, 2}, ByIndex);
    assert PlainMembers(h, {1, 2}, ByIndex, 1, 1) == [];
    assert PlainMembers(h, {1, 2}, ByIndex, 1, 0) == [Some(JStr("y"))];
    assert ObjectMembers(["x"], [Some(JStr("y"))]) == Leafy.members;
  }

  /** The region the diamond reaches is acyclic although the heap is not,
      and the diamond prints in full. */
  lemma AcyclicPartOfCyclicHeap()
    ensures Ranked(Mixed, {1, 2}, ByIndex)
    ensures Stringify(Mixed, Obj(2)) == Serialized(Some(JObj([Member("a", Leafy), Member("b", Leafy)])))
  {
    var h := Mixed;
    MixedLeafPrints();
    AcyclicPrintsInFull(h, {1, 2}, ByIndex, Obj(2));
    assert Children(h[2]) == [Obj(1), Obj(1)] && Keys(h[2]) == ["a", "b"];
    assert PlainMembers(h, {1, 2}, ByIndex, 2, 2) == [];
    assert PlainMembers(h, {1, 2}, ByIndex, 2, 1) == [Some(Leafy)];
    assert PlainMembers(h, {1, 2}, ByIndex, 2, 0) == [Some(Leafy), Some(Leafy)];
    assert ObjectMembers(["b"], [Some(Leafy)]) == [Member("b", Leafy)];
    assert ObjectMembers(["a", "b"], [Some(Leafy), Some(Leafy)]) == [Member("a", Leafy), Member("b", Leafy)];
  }

  /** The replacer's calls while serialising `{ a: o, b: o }` (objects 1 and
      0 above): the stack is cut back to the holder before each check, so the
      second visit of `o` is not mistaken for a cycle. The last call is a
      hypothetical one, not made on this graph: were `o` to hold a property
      leading back to object 1, that back edge would become the marker. */
  lemma ReplacerTraceOnSiblings()
    ensures Replace([], Wrapper, Obj(1)) == Step(Obj(1), [1])
    ensures Replace([1], Within(1), Obj(0)) == Step(Obj(0), [1, 0])
    ensures Replace([1, 0], Within(0), Prim(Str("y"))) == Step(Prim(Str("y")), [1, 0])
    ensures Replace([1, 0], Within(1), Obj(0)) == Step(Obj(0), [1, 0])
    ensures Replace([1, 0], Within(0), Obj(1)) == Step(Prim(Str(Circular)), [1, 0])
  {
    assert PopUntil([1, 0], Within(1)) == [1];
    assert PopUntil([1, 0], Within(0)) == [1, 0];
  }

  // Guards (the tests of `is` and `any`).

  /** `is` on `new Err('JsonError', { text: '' })`, its details object 0. */
  lemma IsExamples(h: Heap)
    requires |h| >= 1 && h[0] == Record([Field("text", Prim(Str("")))])
    ensures var e := Make(h, Enc, "JsonError", Obj(0));
            Is(e.heap, Obj(e.ref), "JsonError") && !Is(e.heap, Obj(e.ref), "HttpError")
  {
  }

  /** `any` on `new Err('JsonError', { text: '' })`, on a string and on
      `new Error('Some error')`. */
  lemma AnyExamples(h: Heap)
    requires |h| >= 1 && h[0] == Record([Field("text", Prim(Str("")))])
    ensures var e := Make(h, Enc, "JsonError", Obj(0));
            var plain := Allocate(e.heap, ErrorObject("Some error"));
            && Any(plain.heap, Obj(e.ref))
            && !Any(plain.heap, Prim(Str("foo")))
            && !Any(plain.heap, Obj(plain.ref))
  {
  }

  // Dispatch (the tests of `match`).

  function Returns(n: int): Handler {
    (h: Heap, x: Value) => Returned(h, Prim(Num(n)))
  }

  /** `{ HttpError: () => 100, JsonError: () => 200 }`. */
  function BothHandlers(): map<string, Handler> {
    var none: map<string, Handler> := map[];
    var http: map<string, Handler> := none["HttpError" := Returns(100)];
    http["JsonError" := Returns(200)]
  }

  /** `{ JsonError: () => 200 }`. */
  function JsonHandlerOnly(): map<string, Handler> {
    var none: map<string, Handler> := map[];
    none["JsonError" := Returns(200)]
  }

  lemma MatchExamples(h: Heap)
    requires |h| >= 1 && h[0] == Record([Field("text", Prim(Str("")))])
    ensures var hs := BothHandlers();
            var json := Make(h, Enc, "JsonError", Obj(0));
            && Match(h, Enc, Prim(Num(1)), Some(hs), None) == Returned(h, Prim(Num(1)))
            && Match(json.heap, Enc, Obj(json.ref), Some(hs), None) == Returned(json.heap, Prim(Num(200)))
  {
  }

  /** An `HttpError` matched against `{ JsonError: () => 200 }` with no
      default becomes an `Unknown` error reporting `HttpError`. */
  lemma UnhandledExample(h: Heap)
    requires |h| >= 1 && h[0] == Record([Field("text", Prim(Str("")))])
    ensures var http := Make(h, Enc, "HttpError", Obj(0));
            var c := Match(http.heap, Enc, Obj(http.ref), Some(JsonHandlerOnly()), None);
            c.Returned? && ReportsMissing(c.heap, c.value, "HttpError") && Is(c.heap, c.value, "Unknown")
  {
  }

  // Guarded invocation (the synchronous tests of `tryCatch`).

  /** A function that throws a new `Error`. */
  function Throws(message: string): Guarded {
    (h: Heap, args: seq<Value>) =>
      var a := Allocate(h, ErrorObject(message));
      Threw(a.heap, Obj(a.ref))
  }

  lemma TryCatchExamples(h: Heap)
    ensures TryCatch(h, Enc, (h: Heap, args: seq<Value>) => Returned(h, Prim(Str("foo"))), []) == Returned(h, Prim(Str("foo")))
    ensures var c := TryCatch(h, Enc, Throws("Something went wrong"), []);
            && Is(c.heap, c.value, "Unknown")
            && c.heap[Payload(c.heap, c.value).ref] == ErrorObject("Something went wrong")
  {
    var t := Throws("Something went wrong")(h, []);
    TryCatchKeepsThrown(h, Enc, Throws("Something went wrong"), []);
  }
}

=== FILE: functions.dfy ===
/** The library's runtime functions: `make`, the guards `is` and `any`,
    the dispatcher `match` and the synchronous part of `tryCatch`. */
module Functions {
  import opened Values
  import opened JsonTree
  import opened JsonStringify
  import opened Errors

  /** A match handler: called with the heap and the error. */
  type Handler = (Heap, Value) -> Outcome

  /** A guarded function, applied to the heap and its arguments. */
  type Guarded = (Heap, seq<Value>) -> Outcome

  /** `make(type, details)`: a new `Err` on top of the given heap. */
  function Make(h: Heap, enc: Encoding, tag: string, details: Value): (a: Alloc)
    requires ValidIn(h, details)
    ensures |h| <= a.ref < |a.heap| && a.heap[..|h|] == h
    ensures Is(a.heap, Obj(a.ref), tag)
    ensures a.heap[a.ref].err.details == details
    ensures a.heap[a.ref].err.message == tag + ": " + Interpolate(Unfold(h, details, []), enc)
  {
    NewErr(h, enc, tag, details)
  }

  /** `any(x)`: `x instanceof Err`, whatever its tag. Only a reference can
      be an instance, and only one to an existing object. */
  function Any(h: seq<Node>, x: Value): (b: bool)
    ensures !x.Obj? ==> !b
    ensures b ==> ValidIn(h, x) && h[x.ref].ErrObject?
  {
    x.Obj? && x.ref < |h| && h[x.ref].ErrObject?
  }

  /** The tag of an `Err`. */
  function TagOf(h: seq<Node>, x: Value): string
    requires Any(h, x)
  {
    h[x.ref].err.tag
  }

  /** `is(x, k)`: `x instanceof Err && x.type === k`. */
  function Is(h: seq<Node>, x: Value, k: string): (b: bool)
    ensures b ==> Any(h, x)
    ensures Any(h, x) ==> (b <==> h[x.ref].err.tag == k)
  {
    Any(h, x) && TagOf(h, x) == k
  }

  // Dispatch.

  /** Which function `match` calls for an `Err` of a given tag. */
  datatype Route = ByTag(f: Handler) | ByDefault(f: Handler) | Unhandled

  /** `handlers || {}`: omitted handlers are treated as an empty object. */
  function HandlersOrEmpty(handlers: Option<map<string, Handler>>): map<string, Handler> {
    match handlers
    case None => map[]
    case Some(hs) => hs
  }

  /** `handlers[type] || defaultHandler`, reading only the handlers the
      caller supplied: the tag's own handler wins over the default. */
  function RouteOf(handlers: Option<map<string, Handler>>, default: Option<Handler>, tag: string): (r: Route)
    ensures tag in HandlersOrEmpty(handlers) ==> r == ByTag(HandlersOrEmpty(handlers)[tag])
    ensures tag !in HandlersOrEmpty(handlers) && default.Some? ==> r == ByDefault(default.value)
    ensures r.Unhandled? <==> tag !in HandlersOrEmpty(handlers) && default.None?
  {
    var hs := HandlersOrEmpty(handlers);
    if tag in hs then ByTag(hs[tag])
    else if default.Some? then ByDefault(default.value)
    else Unhandled
  }

  /** The text of the `Error` reporting a missing handler. */
  function MissingMessage(tag: string): string {
    "wari: missing error type '" + tag + "' in match call"
  }

  /** `e` is an `Unknown` error whose details are an object with the single
      property `error`, holding `payload`. */
  predicate WrapsAs(h: seq<Node>, e: Value, payload: Value) {
    && Is(h, e, "Unknown")
    && var d := h[e.ref].err.details;
       d.Obj? && d.ref < |h| && h[d.ref] == Record([Field("error", payload)])
  }

  /** `e` is the `Unknown` error `match` returns for a missing handler: its
      `details.error` is a plain `Error` naming the tag. */
  predicate ReportsMissing(h: seq<Node>, e: Value, tag: string) {
    && Is(h, e, "Unknown")
    && var d := h[e.ref].err.details;
       && d.Obj? && d.ref < |h| && h[d.ref].Record? && |h[d.ref].fields| == 1
       && var f := h[d.ref].fields[0];
          && f.key == "error" && f.value.Obj? && f.value.ref < |h|
          && h[f.value.ref] == ErrorObject(MissingMessage(tag))
  }

  /** `{ error: new Error(...) }` for a missing handler: two fresh objects,
      the record last, which serialises as `{"error":{}}`. */
  function MissingRecord(h: Heap, tag: string): (a: Alloc)
    ensures a.ref == |h| + 1
    ensures a.heap == h + [ErrorObject(MissingMessage(tag)), Record([Field("error", Obj(|h|))])]
    ensures Unfold(a.heap, Obj(a.ref), []) == Some(JObj([Member("error", JObj([]))]))
  {
    var error := Allocate(h, ErrorObject(MissingMessage(tag)));
    var record := Allocate(error.heap, Record([Field("error", Obj(error.ref))]));
    EmptyErrorPrintsEmpty(record.heap, record.ref, error.ref);
    record
  }

  /** `new Err('Unknown', { error: new Error(...) })` for a missing handler. */
  function MissingHandler(h: Heap, enc: Encoding, tag: string): (c: Outcome)
    ensures c.Returned? && |c.heap| == |h| + 3 && c.heap[..|h|] == h
    ensures ReportsMissing(c.heap, c.value, tag)
    ensures c.heap[c.value.ref].err.message == "Unknown" + ": " + Text(JObj([Member("error", JObj([]))]), enc)
  {
    var record := MissingRecord(h, tag);
    var err := NewErr(record.heap, enc, "Unknown", Obj(record.ref));
    Returned(err.heap, Obj(err.ref))
  }

  /** `{ error: e }` where `e` is a plain `Error` serialises as
      `{"error":{}}`: an `Error`'s message is not enumerable. */
  lemma EmptyErrorPrintsEmpty(h: Heap, record: Ref, error: Ref)
    requires record < |h| && error < |h| && record != error
    requires h[record] == Record([Field("error", Obj(error))]) && h[error].ErrorObject?
    ensures Unfold(h, Obj(record), []) == Some(JObj([Member("error", JObj([]))]))
  {
    assert Children(h[error]) == [];
    assert UnfoldMembers(h, error, 0, [record, error]) == [];
    assert Children(h[record]) == [Obj(error)];
    assert UnfoldMembers(h, record, 1, [record]) == [];
    assert UnfoldMembers(h, record, 0, [record]) == [Some(JObj([]))];
    assert [] + [record] == [record];
    assert Keys(h[record]) == ["error"];
    assert ObjectMembers(["error"], [Some(JObj([]))]) == [Member("error", JObj([]))];
  }

  /** The text of `{"error":{}}`. */
  lemma EmptyErrorText(enc: Encoding)
    ensures Text(JObj([Member("error", JObj([]))]), enc) == "{" + enc.quote("error") + ":{}}"
  {
    var ms := [Member("error", JObj([]))];
    assert Text(JObj([]), enc) == "{}";
    var parts := seq(|ms|, i requires 0 <= i < |ms| => enc.quote(ms[i].key) + ":" + Text(ms[i].value, enc));
    assert |parts| == 1 && parts[0] == enc.quote("error") + ":{}";
  }

  /** The runtime body of both overloads of `match`. A value that is not an
      `Err` comes back unchanged; an `Err` goes to the handler for its tag,
      else to the default handler, else becomes an `Unknown` error reporting
      the missing tag. `match` itself never throws: only a handler can. */
  function Match(h: Heap, enc: Encoding, x: Value, handlers: Option<map<string, Handler>>, default: Option<Handler>): (c: Outcome)
    requires ValidIn(h, x)
    ensures !Any(h, x) ==> c == Returned(h, x)
    ensures Any(h, x) && TagOf(h, x) in HandlersOrEmpty(handlers) ==>
              c == HandlersOrEmpty(handlers)[TagOf(h, x)](h, x)
    ensures Any(h, x) && TagOf(h, x) !in HandlersOrEmpty(handlers) && default.Some? ==>
              c == default.value(h, x)
    ensures Any(h, x) && TagOf(h, x) !in HandlersOrEmpty(handlers) && default.None? ==>
              && c.Returned? && |c.heap| > |h| && c.heap[..|h|] == h
              && ReportsMissing(c.heap, c.value, TagOf(h, x))
  {
    if !Any(h, x) then
      Returned(h, x)
    else
      match RouteOf(handlers, default, TagOf(h, x))
      case ByTag(f) => f(h, x)
      case ByDefault(f) => f(h, x)
      case Unhandled => MissingHandler(h, enc, TagOf(h, x))
  }

  // Guarded invocation.

  /** The synchronous part of `tryCatch(fn, ...args)`: a normal return is
      passed on unchanged; a throw becomes a fresh `Unknown` error whose
      `details.error` is the thrown value. Nothing escapes, since every
      value the model has can be serialised. */
  function TryCatch(h: Heap, enc: Encoding, fn: Guarded, args: seq<Value>): (c: Outcome)
    ensures c.Returned?
    ensures fn(h, args).Returned? ==> c == fn(h, args)
    ensures fn(h, args).Threw? ==>
              var t := fn(h, args);
              && |c.heap| == |t.heap| + 2 && c.heap[..|t.heap|] == t.heap
              && WrapsAs(c.heap, c.value, t.thrown)
              && c.heap[c.value.ref].err.message
                 == "Unknown" + ": " + Text(JObj(ObjectMembers(["error"], [Unfold(t.heap, t.thrown, [])])), enc)
  {
    match fn(h, args)
    case Returned(h', v) => Returned(h', v)
    case Threw(h', e) =>
      var record := Allocate(h', Record([Field("error", e)]));
      var err := NewErr(record.heap, enc, "Unknown", Obj(record.ref));
      RecordPrints(h', e, record.heap, record.ref);
      Returned(err.heap, Obj(err.ref))
  }

  /** `{ error: e }`, freshly allocated on top of the heap `e` lives in,
      serialises as `e` does on its own, under the key `error` (and as `{}`
      when `e` is `undefined`). */
  lemma RecordPrints(h: Heap, e: Value, h': Heap, record: Ref)
    requires ValidIn(h, e) && h <= h' && record == |h| < |h'|
    requires h'[record] == Record([Field("error", e)])
    ensures Unfold(h', Obj(record), []) == Some(JObj(ObjectMembers(["error"], [Unfold(h, e, [])])))
  {
    assert Children(h'[record]) == [e];
    assert Keys(h'[record]) == ["error"];
    UnfoldFrame(h, h', e, [], [record]);
    assert [] + [record] == [record];
    assert UnfoldMembers(h', record, 0, [record]) == [Unfold(h', e, [record])];
  }

  // Relations between the operations.

  /** The converse of `Any`'s contract: every reference to an existing
      `Err`, however it came to be on the heap, passes `any`, and `is` for
      its own tag. */
  lemma ErrsPassAny(h: seq<Node>, r: Ref)
    requires r < |h| && h[r].ErrObject?
    ensures Any(h, Obj(r)) && Is(h, Obj(r), h[r].err.tag)
  {
  }

  /** A made error passes `any` and `is` for its own tag, and fails `is` for
      every other tag. */
  lemma MadeErrorIsItsTag(h: Heap, enc: Encoding, tag: string, details: Value, other: string)
    requires ValidIn(h, details)
    ensures var a := Make(h, enc, tag, details);
            && Any(a.heap, Obj(a.ref))
            && Is(a.heap, Obj(a.ref), tag)
            && (other != tag ==> !Is(a.heap, Obj(a.ref), other))
  {
  }

  /** `is(x, k)` implies `any(x)`, and every `Err` is `is` its own tag. */
  lemma IsRefinesAny(h: seq<Node>, x: Value, k: string)
    ensures Is(h, x, k) ==> Any(h, x)
    ensures Any(h, x) ==> Is(h, x, TagOf(h, x))
  {
  }

  /** Primitives, plain objects, arrays and plain `Error`s are not `Err`s. */
  lemma OnlyErrsAreErrs(h: seq<Node>, x: Value)
    requires x.Prim? || (x.ref < |h| && !h[x.ref].ErrObject?)
    ensures !Any(h, x) && forall k :: !Is(h, x, k)
  {
  }

  /** Allocating a new error changes neither guard on any existing value. */
  lemma GuardsSurviveAllocation(h: Heap, enc: Encoding, tag: string, details: Value, x: Value, k: string)
    requires ValidIn(h, details) && ValidIn(h, x)
    ensures var a := Make(h, enc, tag, details);
            && (Any(a.heap, x) <==> Any(h, x))
            && (Is(a.heap, x, k) <==> Is(h, x, k))
  {
    var a := Make(h, enc, tag, details);
    if x.Obj? {
      assert a.heap[x.ref] == a.heap[..|h|][x.ref] == h[x.ref];
    }
  }

  /** `match` leaves a non-error alone however often it is applied, which is
      how ordinary results flow through chains of `match` calls. */
  lemma MatchChainPassesThrough(h: Heap, enc: Encoding, x: Value,
                                hs1: Option<map<string, Handler>>, d1: Option<Handler>,
                                hs2: Option<map<string, Handler>>, d2: Option<Handler>)
    requires ValidIn(h, x) && !Any(h, x)
    ensures var c := Match(h, enc, x, hs1, d1);
            c == Returned(h, x) && Match(c.heap, enc, c.value, hs2, d2) == Returned(h, x)
  {
  }

  /** Matching a freshly made error calls the handler for its tag, even when a
      default is present. */
  lemma MatchMadeError(h: Heap, enc: Encoding, tag: string, details: Value,
                       hs: map<string, Handler>, default: Option<Handler>)
    requires ValidIn(h, details) && tag in hs
    ensures var a := Make(h, enc, tag, details);
            Match(a.heap, enc, Obj(a.ref), Some(hs), default) == hs[tag](a.heap, Obj(a.ref))
  {
  }

  /** A handler that never throws. */
  ghost predicate NeverThrows(f: Handler) {
    forall h, x :: f(h, x).Returned?
  }

  /** `match` adds no throw of its own: with handlers that never throw, it
      always returns. */
  lemma MatchOnlyThrowsFromHandlers(h: Heap, enc: Encoding, x: Value,
                                    handlers: Option<map<string, Handler>>, default: Option<Handler>)
    requires ValidIn(h, x)
    requires forall t :: t in HandlersOrEmpty(handlers) ==> NeverThrows(HandlersOrEmpty(handlers)[t])
    requires default.Some? ==> NeverThrows(default.value)
    ensures Match(h, enc, x, handlers, default).Returned?
  {
  }

  /** What `tryCatch` returns for a throw is an `Unknown` error from which
      the thrown value can be read back. */
  lemma TryCatchKeepsThrown(h: Heap, enc: Encoding, fn: Guarded, args: seq<Value>)
    requires fn(h, args).Threw?
    ensures var c := TryCatch(h, enc, fn, args);
            && Is(c.heap, c.value, "Unknown")
            && Payload(c.heap, c.value) == fn(h, args).thrown
  {
  }

  /** `details.error` of an error whose details are `{ error: ... }`. */
  function Payload(h: seq<Node>, e: Value): Value
    requires exists p :: WrapsAs(h, e, p)
  {
    var d := h[e.ref].err.details;
    h[d.ref].fields[0].value
  }

  // As-written lookup (see the findings in the README).

  /** Names every object literal inherits from `Object.prototype`; indexing
      `handlers` with one of them finds a function (or, for `__proto__`, an
      object) even when the caller supplied no such handler. */
  const InheritedNames: set<string> :=
    { "constructor", "hasOwnProperty", "isPrototypeOf", "propertyIsEnumerable",
      "toLocaleString", "toString", "valueOf", "__defineGetter__",
      "__defineSetter__", "__lookupGetter__", "__lookupSetter__", "__proto__" }

  /** What `handlers[error.type] || defaultHandler` finds as written. */
  datatype Lookup = OwnHandler(f: Handler) | PrototypeMember(name: string) | DefaultHandler(f: Handler) | NoHandler

  function LookupAsWritten(handlers: Option<map<string, Handler>>, default: Option<Handler>, tag: string): (l: Lookup)
    ensures tag in HandlersOrEmpty(handlers) ==> l == OwnHandler(HandlersOrEmpty(handlers)[tag])
    ensures tag !in HandlersOrEmpty(handlers) && tag in InheritedNames ==> l == PrototypeMember(tag)
  {
    var hs := HandlersOrEmpty(handlers);
    if tag in hs then OwnHandler(hs[tag])
    else if tag in InheritedNames then PrototypeMember(tag)
    else if default.Some? then DefaultHandler(default.value)
    else NoHandler
  }

  /** The lookup as written lets an inherited name through: for the tag
      `constructor` with no handlers and no default it finds the `Object`
      function instead of reporting the missing handler, and with a default
      it still never reaches the default. The corrected `RouteOf` reports
      the missing handler. */
  lemma InheritedTagSkipsFallback(default: Option<Handler>)
    ensures LookupAsWritten(None, default, "constructor") == PrototypeMember("constructor")
    ensures LookupAsWritten(Some(map[]), default, "toString") == PrototypeMember("toString")
    ensures default.None? ==> RouteOf(None, default, "constructor") == Unhandled
    ensures default.Some? ==> RouteOf(None, default, "constructor") == ByDefault(default.value)
  {
  }

  /** The host's `TypeError`, as a plain `Error` on top of the heap. */
  function ThrowTypeError(h: Heap, name: string): (c: Outcome)
    ensures c.Threw? && c.heap == h + [ErrorObject("TypeError: " + name)]
    ensures c.thrown == Obj(|h|)
  {
    var e := Allocate(h, ErrorObject("TypeError: " + name));
    Threw(e.heap, Obj(e.ref))
  }

  /** Calling the inherited member `name` as `fn(error)`: a plain call in
      strict (module) code, so `this` is `undefined`. `Object(err)` is `err`
      itself and `Object.prototype.toString` names the `undefined` receiver;
      `__proto__` is `Object.prototype`, which is not callable, and every
      other member starts by converting `this` to an object, so each of them
      throws a `TypeError`. */
  function CallInherited(h: Heap, x: Value, name: string): (c: Outcome)
    requires ValidIn(h, x) && name in InheritedNames
    ensures name == "constructor" ==> c == Returned(h, x)
    ensures name == "toString" ==> c == Returned(h, Prim(Str("[object Undefined]")))
    ensures name != "constructor" && name != "toString" <==> c.Threw?
    ensures c.Threw? ==> c.heap == h + [ErrorObject("TypeError: " + name)] && c.thrown == Obj(|h|)
  {
    if name == "constructor" then Returned(h, x)
    else if name == "toString" then Returned(h, Prim(Str("[object Undefined]")))
    else ThrowTypeError(h, name)
  }

  /** The runtime body of `match` with the lookup as written. It agrees
      with the corrected `Match` except on tags that name a member of
      `Object.prototype` for which the caller supplied no handler. */
  function MatchAsWritten(h: Heap, enc: Encoding, x: Value, handlers: Option<map<string, Handler>>, default: Option<Handler>): (c: Outcome)
    requires ValidIn(h, x)
    ensures !(Any(h, x) && TagOf(h, x) !in HandlersOrEmpty(handlers) && TagOf(h, x) in InheritedNames) ==>
              c == Match(h, enc, x, handlers, default)
  {
    if !Any(h, x) then Returned(h, x)
    else
      match LookupAsWritten(handlers, default, TagOf(h, x))
      case OwnHandler(f) => f(h, x)
      case DefaultHandler(f) => f(h, x)
      case NoHandler => MissingHandler(h, enc, TagOf(h, x))
      case PrototypeMember(name) => CallInherited(h, x, name)
  }

  /** The discrepancy itself. An `Err` tagged `constructor` that no handler
      names comes back unchanged from `match` as written, where the
      corrected lookup reaches the default or reports the missing handler.
      An `Err` tagged `__proto__` (or any inherited name but `constructor`
      and `toString`) makes `match` as written throw, although the corrected
      `match` without a default always returns. */
  lemma InheritedTagsMisroute(h: Heap, enc: Encoding, x: Value, handlers: Option<map<string, Handler>>, default: Option<Handler>)
    requires ValidIn(h, x) && Any(h, x) && TagOf(h, x) !in HandlersOrEmpty(handlers)
    ensures TagOf(h, x) == "constructor" ==> MatchAsWritten(h, enc, x, handlers, default) == Returned(h, x)
    ensures TagOf(h, x) == "__proto__" ==> MatchAsWritten(h, enc, x, handlers, default).Threw?
    ensures default.Some? ==> Match(h, enc, x, handlers, default) == default.value(h, x)
    ensures default.None? ==> Match(h, enc, x, handlers, default).Returned?
    ensures default.None? ==> Match(h, enc, x, handlers, default) != Returned(h, x)
  {
  }
}

=== FILE: json.dfy ===
/** The JSON document a serialisation produces, and its rendering as text.
    How numbers are printed and how strings are quoted and escaped belong to
    the host's `JSON.stringify`; they are a parameter here. */
module JsonTree {

  datatype Json =
    | JNull
    | JBool(b: bool)
    | JNum(n: int)
    | JStr(s: string)
    | JArr(items: seq<Json>)
    | JObj(members: seq<Member>)

  datatype Member = Member(key: string, value: Json)

  /** Leaf rendering: string quoting with escapes, and number formatting. */
  datatype Encoding = Encoding(quote: string -> string, number: int -> string)

  /** The parts joined by commas. */
  function Join(parts: seq<string>): (s: string)
    ensures parts == [] ==> s == ""
    ensures |parts| == 1 ==> s == parts[0]
  {
    if |parts| == 0 then ""
    else if |parts| == 1 then parts[0]
    else parts[0] + "," + Join(parts[1..])
  }

  /** The compact text `JSON.stringify` prints for a document (no indentation
      argument is used by the library). */
  function Text(j: Json, enc: Encoding): string {
    match j
    case JNull => "null"
    case JBool(b) => if b then "true" else "false"
    case JNum(n) => enc.number(n)
    case JStr(s) => enc.quote(s)
    case JArr(items) =>
      "[" + Join(seq(|items|, i requires 0 <= i < |items| => Text(items[i], enc))) + "]"
    case JObj(ms) =>
      "{" + Join(seq(|ms|, i requires 0 <= i < |ms| => enc.quote(ms[i].key) + ":" + Text(ms[i].value, enc))) + "}"
  }
}

=== FILE: replacer.dfy ===
/** The replacer handed to `JSON.stringify` when an `Err` builds its message.
    It is a closure over a stack of ancestor objects; here that stack is
    passed in and handed back explicitly. */
module Replacer {
  import opened Values

  /** The object a replacer call is made on (`this`): the wrapper object
      `JSON.stringify` creates around the root value for the first call, or
      the object that owns the property being visited. The wrapper is never
      on the heap, so it differs from every reference. */
  datatype Holder = Wrapper | Within(ref: Ref)

  /** The marker that replaces an object already on the ancestor chain. */
  const Circular: string := "[Circular]"

  /** A replacer call's result: the value to serialise in place of the input,
      and the ancestor stack for the next call. */
  datatype Step = Step(value: Value, ancestors: seq<Ref>)

  /** Pops the ancestor stack until its top is the holder (or it is empty).
      The result is the longest prefix of the stack that ends at the holder,
      because nothing popped is the holder. */
  function PopUntil(ancestors: seq<Ref>, holder: Holder): (kept: seq<Ref>)
    ensures kept <= ancestors
    ensures kept == [] || Within(kept[|kept| - 1]) == holder
    ensures forall i :: |kept| <= i < |ancestors| ==> Within(ancestors[i]) != holder
    decreases |ancestors|
  {
    if |ancestors| > 0 && Within(ancestors[|ancestors| - 1]) != holder then
      PopUntil(ancestors[..|ancestors| - 1], holder)
    else
      ancestors
  }

  /** One replacer call on `value`, made on `holder`. Primitives and `null`
      come back unchanged and leave the stack alone. An object first has the
      stack cut back to its holder; it is then replaced by the marker when it
      is still on the stack, and otherwise returned and pushed. */
  function Replace(ancestors: seq<Ref>, holder: Holder, value: Value): (s: Step)
    ensures !value.Obj? ==> s == Step(value, ancestors)
    ensures s.value == value || s.value == Prim(Str(Circular))
    ensures value.Obj? ==>
              var kept := PopUntil(ancestors, holder);
              && (s.value == value <==> value.ref !in kept)
              && s.ancestors == (if value.ref in kept then kept else kept + [value.ref])
  {
    if !value.Obj? then Step(value, ancestors)
    else
      var kept := PopUntil(ancestors, holder);
      if value.ref in kept then Step(Prim(Str(Circular)), kept)
      else Step(value, kept + [value.ref])
  }
}

=== FILE: stringify.dfy ===
/** `JSON.stringify(details, replacer)` with the circular replacer: the
    depth-first walk of the standard serialisation algorithm (which keeps its
    own stack of the objects being serialised and fails with a `TypeError`
    when it meets one of them again), calling the replacer on every value
    before serialising it. */
module JsonStringify {
  import opened Values
  import opened JsonTree
  import opened Replacer

  /** The state after a part of the walk: what it produced and the
      replacer's ancestor stack, or the `TypeError` a cycle raises. */
  datatype Walk<T> = Walked(out: T, ancestors: seq<Ref>) | Cyclic

  /** The objects that are not on the serialisation stack. It shrinks at each
      descent into an object, which bounds the walk on any finite heap. */
  function Unvisited(h: Heap, stack: seq<Ref>): set<Ref> {
    set r | 0 <= r < |h| && r !in stack
  }

  /** What a primitive serialises to; `undefined` produces nothing. */
  function Leaf(p: Prim): (o: Option<Json>)
    ensures o.None? <==> p.Undefined?
  {
    match p
    case Undefined => None
    case Null => Some(JNull)
    case Bool(b) => Some(JBool(b))
    case Num(n) => Some(JNum(n))
    case Str(s) => Some(JStr(s))
  }

  /** Array elements: a property that produced nothing prints as `null`. */
  function ArrayItems(outs: seq<Option<Json>>): (items: seq<Json>)
    ensures |items| == |outs|
    ensures forall i :: 0 <= i < |outs| && outs[i].Some? ==> items[i] == outs[i].value
    ensures forall i :: 0 <= i < |outs| && outs[i].None? ==> items[i] == JNull
  {
    seq(|outs|, i requires 0 <= i < |outs| => if outs[i].Some? then outs[i].value else JNull)
  }

  /** Object members: a property that produced nothing is left out. */
  function ObjectMembers(keys: seq<string>, outs: seq<Option<Json>>): (ms: seq<Member>)
    requires |keys| == |outs|
    ensures |ms| <= |outs|
    decreases |outs|
  {
    if |outs| == 0 then []
    else
      (if outs[0].Some? then [Member(keys[0], outs[0].value)] else [])
      + ObjectMembers(keys[1..], outs[1..])
  }

  /** The document for an object whose properties produced `outs`. */
  function Assemble(n: Node, outs: seq<Option<Json>>): Json
    requires |outs| == |Children(n)|
  {
    if n.List? then JArr(ArrayItems(outs)) else JObj(ObjectMembers(Keys(n), outs))
  }

  /** Serialises the property of `holder` whose value is `value`: the
      replacer runs first; an object it returns is serialised member by
      member, unless it is already on the serialisation stack. */
  function Property(h: Heap, holder: Holder, value: Value, stack: seq<Ref>, ancestors: seq<Ref>): (w: Walk<Option<Json>>)
    requires ValidIn(h, value)
    decreases Unvisited(h, stack), 0, 0
  {
    var step := Replace(ancestors, holder, value);
    match step.value
    case Prim(p) => Walked(Leaf(p), step.ancestors)
    case Obj(r) =>
      if r in stack then Cyclic
      else
        assert r in Unvisited(h, stack) && r !in Unvisited(h, stack + [r]);
        match Members(h, r, 0, stack + [r], step.ancestors)
        case Cyclic => Cyclic
        case Walked(outs, anc) => Walked(Some(Assemble(h[r], outs)), anc)
  }

  /** Serialises the properties of object `r` from the `i`-th on, in order,
      threading the replacer's stack from one to the next. */
  function Members(h: Heap, r: Ref, i: nat, stack: seq<Ref>, ancestors: seq<Ref>): (w: Walk<seq<Option<Json>>>)
    requires r < |h| && i <= |Children(h[r])|
    ensures w.Walked? ==> |w.out| == |Children(h[r])| - i
    decreases Unvisited(h, stack), 1, |Children(h[r])| - i
  {
    if i == |Children(h[r])| then Walked([], ancestors)
    else
      var child := Children(h[r])[i];
      assert ValidIn(h, child);
      match Property(h, Within(r), child, stack, ancestors)
      case Cyclic => Cyclic
      case Walked(o, anc) =>
        match Members(h, r, i + 1, stack, anc)
        case Cyclic => Cyclic
        case Walked(os, anc') => Walked([o] + os, anc')
  }

  /** The result of `JSON.stringify(value, getCircularReplacer())`, before
      rendering as text: a document, nothing (for `undefined`), or the
      `TypeError` of a cyclic structure. */
  datatype Serialized = Serialized(json: Option<Json>) | TypeError

  /** The serialisation an `Err` message is built from. It never fails, and
      it is the unfolding of the graph in which exactly the objects that are
      their own ancestors become the marker. */
  function Stringify(h: Heap, value: Value): (r: Serialized)
    requires ValidIn(h, value)
    ensures !r.TypeError?
    ensures r == Serialized(Unfold(h, value, []))
  {
    PropertyFollowsPath(h, Wrapper, value, [], []);
    match Property(h, Wrapper, value, [], [])
    case Cyclic => TypeError
    case Walked(o, _) => Serialized(o)
  }

  // Reference definition: the unfolding along a path.

  /** The document for `value` reached along `path` (the objects from the
      root down to the value's owner): an object on the path is the marker,
      any other object is unfolded in full. */
  function Unfold(h: Heap, value: Value, path: seq<Ref>): Option<Json>
    requires ValidIn(h, value)
    decreases Unvisited(h, path), 0, 0
  {
    match value
    case Prim(p) => Leaf(p)
    case Obj(r) =>
      if r in path then Some(JStr(Circular))
      else
        assert r in Unvisited(h, path) && r !in Unvisited(h, path + [r]);
        Some(Assemble(h[r], UnfoldMembers(h, r, 0, path + [r])))
  }

  function UnfoldMembers(h: Heap, r: Ref, i: nat, path: seq<Ref>): (outs: seq<Option<Json>>)
    requires r < |h| && i <= |Children(h[r])|
    ensures |outs| == |Children(h[r])| - i
    decreases Unvisited(h, path), 1, |Children(h[r])| - i
  {
    if i == |Children(h[r])| then []
    else
      assert ValidIn(h, Children(h[r])[i]);
      [Unfold(h, Children(h[r])[i], path)] + UnfoldMembers(h, r, i + 1, path)
  }

  // The stack-as-path invariant.

  predicate Distinct(s: seq<Ref>) {
    forall i, j :: 0 <= i < j < |s| ==> s[i] != s[j]
  }

  /** Where the walk stands before visiting a property of `holder`: the
      serialisation stack is the chain of objects from the root down to the
      holder, and the replacer's (possibly longer) stack starts with it and
      repeats no object. */
  predicate OnPath(holder: Holder, stack: seq<Ref>, ancestors: seq<Ref>) {
    && stack <= ancestors
    && Distinct(ancestors)
    && if holder.Wrapper? then stack == [] else stack != [] && stack[|stack| - 1] == holder.ref
  }

  /** Popping to the holder leaves exactly the root-to-holder chain. */
  lemma PopToPath(holder: Holder, stack: seq<Ref>, ancestors: seq<Ref>)
    requires OnPath(holder, stack, ancestors)
    ensures PopUntil(ancestors, holder) == stack
  {
    var kept := PopUntil(ancestors, holder);
    if holder.Within? {
      var k := |stack| - 1;
      assert Within(ancestors[k]) == holder;
      assert |kept| > k;
      assert kept[|kept| - 1] == ancestors[|kept| - 1] == ancestors[k];
      assert |kept| == |stack|;
    }
  }

  lemma {:induction false} PropertyFollowsPath(h: Heap, holder: Holder, value: Value, stack: seq<Ref>, ancestors: seq<Ref>)
    requires ValidIn(h, value) && OnPath(holder, stack, ancestors)
    ensures var w := Property(h, holder, value, stack, ancestors);
            && w.Walked?
            && w.out == Unfold(h, value, stack)
            && stack <= w.ancestors
            && Distinct(w.ancestors)
    decreases Unvisited(h, stack), 0, 0
  {
    if value.Obj? {
      PopToPath(holder, stack, ancestors);
      var r := value.ref;
      if r !in stack {
        assert r in Unvisited(h, stack) && r !in Unvisited(h, stack + [r]);
        MembersFollowPath(h, r, 0, stack + [r], stack + [r]);
      }
    }
  }

  lemma {:induction false} MembersFollowPath(h: Heap, r: Ref, i: nat, stack: seq<Ref>, ancestors: seq<Ref>)
    requires r < |h| && i <= |Children(h[r])| && OnPath(Within(r), stack, ancestors)
    ensures var w := Members(h, r, i, stack, ancestors);
            && w.Walked?
            && w.out == UnfoldMembers(h, r, i, stack)
            && stack <= w.ancestors
            && Distinct(w.ancestors)
    decreases Unvisited(h, stack), 1, |Children(h[r])| - i
  {
    if i < |Children(h[r])| {
      var child := Children(h[r])[i];
      assert ValidIn(h, child);
      PropertyFollowsPath(h, Within(r), child, stack, ancestors);
      var w := Property(h, Within(r), child, stack, ancestors);
      MembersFollowPath(h, r, i + 1, stack, w.ancestors);
    }
  }

  /** An object reached along `path` becomes the marker exactly when it is
      one of its own ancestors; otherwise it is printed as an object or
      array. */
  lemma MarkerExactlyOnPath(h: Heap, r: Ref, path: seq<Ref>)
    requires r < |h|
    ensures Unfold(h, Obj(r), path) == Some(JStr(Circular)) <==> r in path
    ensures r !in path ==> Unfold(h, Obj(r), path).Some? && !Unfold(h, Obj(r), path).value.JStr?
  {
  }

  // Acyclic graphs: only ancestors count.

  /** `region` is a set of objects that no property leads out of, and
      `rank` strictly decreases along every property between them. A finite
      region has such a ranking exactly when it holds no cycle (rank each
      object by the length of the longest path from it). Objects outside
      the region, cyclic or not, are unconstrained. */
  predicate Ranked(h: Heap, region: set<Ref>, rank: Ref -> nat) {
    && (forall r :: r in region ==> r < |h|)
    && (forall r, i :: r in region && r < |h| && 0 <= i < |Children(h[r])| && Children(h[r])[i].Obj? ==>
          Children(h[r])[i].ref in region && rank(Children(h[r])[i].ref) < rank(r))
  }

  /** A value whose reachable objects all lie in the region. */
  predicate InRegion(region: set<Ref>, v: Value) {
    v.Obj? ==> v.ref in region
  }

  function Height(rank: Ref -> nat, v: Value): nat {
    if v.Obj? then rank(v.ref) + 1 else 0
  }

  /** What plain `JSON.stringify` without a replacer produces for an acyclic
      graph: every object in full, however many times it is reached. */
  function Plain(h: Heap, region: set<Ref>, rank: Ref -> nat, value: Value): Option<Json>
    requires Ranked(h, region, rank) && ValidIn(h, value) && InRegion(region, value)
    decreases Height(rank, value), 1, 0
  {
    match value
    case Prim(p) => Leaf(p)
    case Obj(r) => Some(Assemble(h[r], PlainMembers(h, region, rank, r, 0)))
  }

  function PlainMembers(h: Heap, region: set<Ref>, rank: Ref -> nat, r: Ref, i: nat): (outs: seq<Option<Json>>)
    requires Ranked(h, region, rank) && r in region && r < |h| && i <= |Children(h[r])|
    ensures |outs| == |Children(h[r])| - i
    decreases rank(r) + 1, 0, |Children(h[r])| - i
  {
    if i == |Children(h[r])| then []
    else
      assert ValidIn(h, Children(h[r])[i]);
      [Plain(h, region, rank, Children(h[r])[i])] + PlainMembers(h, region, rank, r, i + 1)
  }

  /** On an acyclic graph the circular-safe serialisation prints exactly
      what plain serialisation prints: an object shared by siblings is
      printed in full at each place, never as the marker. Only the part of
      the heap the value reaches has to be acyclic. Since the left side does
      not mention `region` or `rank`, plain serialisation does not depend on
      which of them witnesses acyclicity. */
  lemma AcyclicPrintsInFull(h: Heap, region: set<Ref>, rank: Ref -> nat, value: Value)
    requires Ranked(h, region, rank) && ValidIn(h, value) && InRegion(region, value)
    ensures Stringify(h, value) == Serialized(Plain(h, region, rank, value))
  {
    UnfoldAcyclic(h, region, rank, value, []);
  }

  lemma {:induction false} UnfoldAcyclic(h: Heap, region: set<Ref>, rank: Ref -> nat, value: Value, path: seq<Ref>)
    requires Ranked(h, region, rank) && ValidIn(h, value) && InRegion(region, value)
    requires value.Obj? ==> forall p :: p in path ==> p in region && rank(value.ref) < rank(p)
    ensures Unfold(h, value, path) == Plain(h, region, rank, value)
    decreases Height(rank, value), 1, 0
  {
    if value.Obj? {
      var r := value.ref;
      assert r !in path;
      UnfoldMembersAcyclic(h, region, rank, r, 0, path + [r]);
    }
  }

  lemma {:induction false} UnfoldMembersAcyclic(h: Heap, region: set<Ref>, rank: Ref -> nat, r: Ref, i: nat, path: seq<Ref>)
    requires Ranked(h, region, rank) && r in region && r < |h| && i <= |Children(h[r])|
    requires forall p :: p in path ==> p in region && rank(r) <= rank(p)
    ensures UnfoldMembers(h, r, i, path) == PlainMembers(h, region, rank, r, i)
    decreases rank(r) + 1, 0, |Children(h[r])| - i
  {
    if i < |Children(h[r])| {
      var child := Children(h[r])[i];
      assert ValidIn(h, child);
      UnfoldAcyclic(h, region, rank, child, path);
      UnfoldMembersAcyclic(h, region, rank, r, i + 1, path);
    }
  }

  // Framing: the unfolding depends only on what the value reaches.

  /** Growing the heap, or adding to the path objects outside the heap the
      value lives in, does not change the unfolding. */
  lemma {:induction false} UnfoldFrame(h: Heap, h': Heap, value: Value, path: seq<Ref>, path': seq<Ref>)
    requires h <= h' && ValidIn(h, value)
    requires forall r :: 0 <= r < |h| ==> (r in path <==> r in path')
    ensures Unfold(h', value, path') == Unfold(h, value, path)
    decreases Unvisited(h, path), 0, 0
  {
    if value.Obj? && value.ref !in path {
      var r := value.ref;
      assert h'[r] == h[r];
      assert r in Unvisited(h, path) && r !in Unvisited(h, path + [r]);
      UnfoldMembersFrame(h, h', r, 0, path + [r], path' + [r]);
    }
  }

  lemma {:induction false} UnfoldMembersFrame(h: Heap, h': Heap, r: Ref, i: nat, path: seq<Ref>, path': seq<Ref>)
    requires h <= h' && r < |h| && i <= |Children(h[r])|
    requires forall q :: 0 <= q < |h| ==> (q in path <==> q in path')
    ensures UnfoldMembers(h', r, i, path') == UnfoldMembers(h, r, i, path)
    decreases Unvisited(h, path), 1, |Children(h[r])| - i
  {
    assert h'[r] == h[r];
    if i < |Children(h[r])| {
      assert ValidIn(h, Children(h[r])[i]);
      UnfoldFrame(h, h', Children(h[r])[i], path, path');
      UnfoldMembersFrame(h, h', r, i + 1, path, path');
    }
  }
}

=== FILE: values.dfy ===
/** The runtime universe of the library: primitive values, references into a
    heap of objects, and the objects themselves (plain records, arrays, plain
    `Error`s and `Err`s). Every JavaScript value the library can see is a
    `Value` interpreted against a `Heap`. */
module Values {

  /** A reference to an object: its index in the heap. */
  type Ref = nat

  datatype Option<+T> = None | Some(value: T)

  /** The values whose `typeof` is not `'object'`, plus `null`. */
  datatype Prim = Undefined | Null | Bool(b: bool) | Num(n: int) | Str(s: string)

  datatype Value = Prim(p: Prim) | Obj(ref: Ref)

  /** One own enumerable property of a plain object. */
  datatype Field = Field(key: string, value: Value)

  /** A tagged error (the source's `Err`): the tag (its `type` property),
      the payload, and the message built once at construction time. */
  datatype Err = Err(tag: string, details: Value, message: string)

  /** An object on the heap. A plain `Error` keeps its message in a
      non-enumerable property, so it has no enumerable children; an `Err`
      has exactly the enumerable properties `type` and `details`. */
  datatype Node =
    | Record(fields: seq<Field>)
    | List(items: seq<Value>)
    | ErrorObject(message: string)
    | ErrObject(err: Err)

  /** The values of the enumerable own properties of an object, in the order
      JSON serialisation visits them. */
  function Children(n: Node): (cs: seq<Value>)
    ensures n.Record? ==> |cs| == |n.fields|
    ensures n.List? ==> cs == n.items
  {
    match n
    case Record(fs) => seq(|fs|, i requires 0 <= i < |fs| => fs[i].value)
    case List(items) => items
    case ErrorObject(_) => []
    case ErrObject(e) => [Prim(Str(e.tag)), e.details]
  }

  /** The names of the enumerable own properties of a non-array object,
      aligned with `Children`. */
  function Keys(n: Node): (ks: seq<string>)
    requires !n.List?
    ensures |ks| == |Children(n)|
  {
    match n
    case Record(fs) => seq(|fs|, i requires 0 <= i < |fs| => fs[i].key)
    case ErrorObject(_) => []
    case ErrObject(_) => ["type", "details"]
  }

  /** A value is meaningful in `h` when, if it is a reference, it points
      into `h`. */
  predicate ValidIn(h: seq<Node>, v: Value) {
    v.Obj? ==> v.ref < |h|
  }

  /** A heap is closed when no property of any object dangles: JavaScript
      cannot name an object that does not exist. */
  predicate Closed(h: seq<Node>) {
    forall r, i :: 0 <= r < |h| && 0 <= i < |Children(h[r])| ==> ValidIn(h, Children(h[r])[i])
  }

  type Heap = h: seq<Node> | Closed(h) witness []

  /** Appending an object whose properties point into the heap keeps the
      heap closed, and old values stay meaningful. */
  lemma AllocateKeepsClosed(h: Heap, n: Node)
    requires forall i :: 0 <= i < |Children(n)| ==> ValidIn(h, Children(n)[i])
    ensures Closed(h + [n])
  {
    var h' := h + [n];
    forall r, i | 0 <= r < |h'| && 0 <= i < |Children(h'[r])|
      ensures ValidIn(h', Children(h'[r])[i])
    {
      if r < |h| {
        assert h'[r] == h[r];
        assert ValidIn(h, Children(h[r])[i]);
      }
    }
  }

  /** How a call into user code (a handler, a guarded function) ends: it
      returns a value or throws one, leaving the heap it leaves. */
  datatype Completion = Returned(heap: Heap, value: Value) | Threw(heap: Heap, thrown: Value) {
    predicate Valid() {
      match this
      case Returned(h, v) => ValidIn(h, v)
      case Threw(h, e) => ValidIn(h, e)
    }
  }

  type Outcome = c: Completion | c.Valid() witness Returned([], Prim(Undefined))
}
